=== FILE: README.md ===
# ordex-withdraw: a Dafny model of the withdrawal page's logic

The escrow-withdrawal page (`src/app/page.tsx`) connects a wallet, finds the
ethscriptions the account has left in escrow with the marketplace, and asks the wallet
to sign a time-limited withdrawal message. Almost all of it is wiring around wallet,
HTTP and contract libraries. This project models the deterministic logic in it, as
pure functions over sequences with lemmas about them:

- `Withdrawal` models the message builder `nB`. It joins the ids with `", "` and says
  "items" only for more than one id. The expiry is the current time floored to a
  ten-minute boundary, plus two ten-minute steps. The clock is the parameter `nowMs`.
  `Date.prototype.toISOString` is the parameter `iso`, which the model never looks into.
- `Pagination` models `getEthscriptions`. It builds the page URL and follows the
  continuation cursor while a reply is full (a truthy cursor and `total === 50`). It
  accumulates items in fetch order. The endpoint is a finite sequence of replies: the
  k-th reply answers the k-th request. A request that gets no reply fails, and the
  failure propagates, as a rejected `axios.get` does.
- `Escrow` models the filter `escrowState === "PENDING"` and the map
  `id.split(":")[1]`. A JavaScript `undefined` from an id without a colon is `None`.
- `Discovery` composes the three steps as the page runs them after a wallet connects
  (`src/app/page.tsx:60-62`).
- `Text` models `Array.prototype.join` and `String.prototype.split` (with its
  `indexOf`), with round-trip lemmas between them. `Wrappers` holds `Option` and
  `Result`.

Facts about the code:

- The page re-checks the discovered ids with a single request with `page=1`
  (`src/app/page.tsx:64`, `:84`); there is no batching, and that request is not
  modelled here.
- The escrow filter keeps exactly the items whose state is `=== "PENDING"`
  (`src/app/page.tsx:61`); every other state, including a missing one, is dropped.
- Two builds over the same ids within one ten-minute window give the same message,
  expiry included (`Withdrawal.MessageStable`).

## Model

| member | source | states |
|---|---|---|
| `Withdrawal.Expiry` | src/app/page.tsx:27 | the expiry is a multiple of 600000 ms, more than ten and at most twenty minutes after `nowMs` |
| `Withdrawal.ExpiryUnique` | src/app/page.tsx:27 | the expiry is the only multiple of 600000 in the interval (now + 10 min, now + 20 min] |
| `Withdrawal.ExpiryStable` | src/app/page.tsx:26-27 | two clock readings in the same ten-minute window give the same expiry |
| `Withdrawal.MessageStable` | src/app/page.tsx:24-35 | two builds over the same ids at clock readings in the same ten-minute window give the same message |
| `Withdrawal.ExpiryMonotone` | src/app/page.tsx:27 | a later clock reading never gives an earlier expiry |
| `Withdrawal.Plural` | src/app/page.tsx:34 | the suffix is "s" exactly when there is more than one id, and empty exactly when there are zero or one |
| `Withdrawal.Message` | src/app/page.tsx:24-35 | the message starts with the fixed intro; the letter after "item" is "s" exactly when there is more than one id; the message ends with the gas notice and the formatted expiry |
| `Withdrawal.MessageRoundTrip` | src/app/page.tsx:25-34 | for a non-empty list of ids free of commas and line breaks, parsing the message gives back exactly the ids, in input order, whatever the clock and formatter |
| `Withdrawal.MessageDeterminesIds` | src/app/page.tsx:24-35 | two equal messages over such id lists list the same ids in the same order, so a signature covers exactly one id list |
| `Pagination.PageUrl` | src/app/page.tsx:38-41 | the URL of one request: the owner query, plus `&continuation=<cursor>` when the cursor is truthy; its length is that of the endpoint and address plus, for a truthy cursor, the parameter and the cursor; its shape is stated by `PageUrlShape` and its inverse by `CursorRoundTrip` |
| `Pagination.PageUrlShape` | src/app/page.tsx:38-41 | the URL starts with the endpoint and `owner=ETHEREUM:<address>`; it is longer exactly when the cursor is truthy, and then the rest is `&continuation=<cursor>` |
| `Pagination.CursorRoundTrip` | src/app/page.tsx:38-41 | the cursor read back from a URL is the cursor it was built from when that is truthy, and absent otherwise |
| `Pagination.FirstPartial` | src/app/page.tsx:45 | gives the first reply that is not full (a falsy cursor or `total` other than 50); all replies before it are full |
| `Pagination.GetEthscriptions` | src/app/page.tsx:37-50 | the walk always makes a first request, for the caller's cursor; its other properties are stated by `WalkCollectsInOrder` and `WalkRequests` |
| `Pagination.WalkSucceeds` | src/app/page.tsx:45-49 | the walk ends with a result exactly when some reply is not full; otherwise the replies run out and the request fails |
| `Pagination.WalkCollectsInOrder` | src/app/page.tsx:45-49 | the walk succeeds exactly when some reply is not full; the result is then the accumulator followed by the items of every reply up to and including the first reply that is not full, in fetch order |
| `Pagination.WalkRequests` | src/app/page.tsx:38-46 | the first request carries the caller's cursor; there is one request per reply read, plus one unanswered request if the replies run out while full; each later request follows a full reply and carries that reply's cursor |
| `Escrow.Escrowed` | src/app/page.tsx:61 | every kept item is pending; each pending item keeps its multiplicity and every other item is dropped; no more items than the input |
| `Escrow.EscrowedMembership` | src/app/page.tsx:61 | an item is kept exactly when it is in the input and its escrow state is "PENDING" |
| `Escrow.EscrowedAppend` | src/app/page.tsx:61 | filtering a concatenation is the concatenation of the filtered parts, so relative order is kept |
| `Escrow.EscrowedKeepsAll` | src/app/page.tsx:61 | the filter returns its input exactly when every item is pending |
| `Escrow.EscrowedIdempotent` | src/app/page.tsx:61 | filtering twice gives the same as filtering once |
| `Escrow.SecondSegment` | src/app/page.tsx:62 | the segment is defined exactly when the id has a colon, and contains no colon |
| `Escrow.SecondSegmentOf` | src/app/page.tsx:62 | for `network:hash` followed by nothing or by another `:`-segment, with colon-free network and hash, the segment is `hash` |
| `Escrow.IdsOf` | src/app/page.tsx:62 | one output per item, in order, each being that item's second `:`-segment |
| `Escrow.EscrowedIds` | src/app/page.tsx:61-62 | one id per kept item, in order, each being the kept item's second `:`-segment |
| `Escrow.IdsOfAppend` | src/app/page.tsx:62 | the id map of a concatenation is the concatenation of the maps |
| `Escrow.EscrowedIdsAppend` | src/app/page.tsx:61-62 | filter-then-map of a concatenation is the concatenation of the parts' results |
| `Discovery.EscrowedIdsFlatten` | src/app/page.tsx:60-62 | selecting ids over the whole accumulated inventory equals selecting them page by page, in fetch order |
| `Discovery.DiscoverEscrowedIds` | src/app/page.tsx:60-62 | the escrowed ids of the whole walk from no cursor and an empty accumulator; it succeeds exactly when some reply ends the walk; its value is stated by `DiscoveryPerPage` and `EscrowedIdsFlatten` |
| `Discovery.DiscoveryPerPage` | src/app/page.tsx:60-62 | discovery succeeds exactly when some reply ends the walk; it then gives, in fetch order, the escrowed ids of every page up to that reply |
| `Text.Join` | src/app/page.tsx:25 | the join of no elements is empty; otherwise it begins with the first element and is as long as all elements plus one separator between each pair; `SplitJoin`, `JoinSplit` and `JoinAvoids` complete its specification |
| `Text.Split` | src/app/page.tsx:62 | a split always gives at least one piece; `JoinSplit`, `SplitJoin`, `SplitPiecesFree` and `SplitCount` complete its specification |
| `Text.IndexOf` | src/app/page.tsx:62 | the index found holds an occurrence of the separator and no earlier position does; when absent, no position does |
| `Text.JoinSplit` | src/app/page.tsx:62 | joining the pieces of a split with the separator gives back the string |
| `Text.SplitJoin` | src/app/page.tsx:25 | splitting a non-empty join gives back the list when no element contains the separator's first character |
| `Text.SplitPiecesFree` | src/app/page.tsx:62 | no piece of a split on a one-character separator contains that character |
| `Text.SplitCount` | src/app/page.tsx:62 | a split on one character gives more than one piece exactly when the character occurs |
| `Text.JoinAvoids` | src/app/page.tsx:25 | a character absent from the elements and the separator is absent from the join |

## Left out

- React state is not modelled: the `useState` setters, the `isFetchingEthscriptions` re-entry guard, and `isLoading` not being reset on the error path (`src/app/page.tsx:15-22`, `:52-78`). These are component lifecycle, not sequential logic.
- The HTTP calls are not modelled (`src/app/page.tsx:43`, `:64`, `:84`, `:96`). The listing replies are inputs. The `filtered?transaction_hash=…&page=1` double-check and its `total_count` are not modelled.
- Wallet signing, the relay post and the `bulkWithdrawItems` contract call are foreign library calls and are not modelled (`src/app/page.tsx:93-114`). Neither is the `parseInt` of the relay's expiry (`:107`).
- The orchestration in `handleSignMessage` (`src/app/page.tsx:80-120`) is not modelled. This includes its map of `transaction_hash` (`:85`). It is a straight sequence of awaits over external services.
- JSX rendering (`src/app/page.tsx:122-176`) is not modelled.
- Withdrawal.Expiry: the model uses exact integer floor division. The source divides doubles and floors the result. The two agree for clock values far below 2^53 ms, which covers all real dates. `new Date(o).toISOString()` throws outside its date range; that case is not modelled, because `iso` is an uninterpreted parameter.
- Withdrawal.MessageRoundTrip: the parse-back is stated only for non-empty lists of ids without commas or line breaks. `[]` and `[""]` give the same message. Two lists of the same length above one can also collide when ids contain `", "`, for example `["a, b", "c"]` and `["a", "b, c"]`.
- Items are modelled as records with a string `id` and an `extension.escrowState`. A missing `escrowState` compares unequal to `"PENDING"`, so it behaves like any other non-pending state string, which the model covers. A missing `extension` makes the filter throw a `TypeError`, and a missing `id` on a kept item makes the map throw; the effect's `catch` logs both, and neither path is modelled. `total` is an integer; other JSON types are not modelled.
- Pagination.GetEthscriptions: the cursor goes into the URL unencoded, as in the source. Termination comes from the finite reply sequence. A real endpoint that returns full pages forever would make the source recurse without end.

=== FILE: discovery.dfy ===
/**
 * Inventory discovery as the page runs it once a wallet is connected: fetch every
 * listing page from the start (no cursor, empty accumulator), keep the pending items
 * and take their transaction hashes.
 */
module Discovery {
  import opened Wrappers
  import opened Pagination
  import opened Escrow

  /** The escrowed ids of each page, page after page. */
  function PerPageIds(pages: seq<Page<Ethscription>>): seq<Option<string>>
  {
    if |pages| == 0 then [] else EscrowedIds(pages[0].items) + PerPageIds(pages[1..])
  }

  /** Selecting over the whole inventory equals selecting page by page. */
  lemma {:induction false} EscrowedIdsFlatten(pages: seq<Page<Ethscription>>)
    ensures EscrowedIds(Flatten(pages)) == PerPageIds(pages)
  {
    if |pages| > 0 {
      EscrowedIdsFlatten(pages[1..]);
      EscrowedIdsAppend(pages[0].items, Flatten(pages[1..]));
    }
  }

  /** The escrowed ids of the account at `address`, given the listing's replies. */
  function DiscoverEscrowedIds(address: string, responses: seq<Page<Ethscription>>): (r: Result<seq<Option<string>>, FetchError>)
    ensures r.Success? <==> FirstPartial(responses).Some?
  {
    WalkCollectsInOrder(address, None, [], responses);
    match GetEthscriptions(address, None, [], responses).result
    case Failure(e) => Failure(e)
    case Success(items) => Success(EscrowedIds(items))
  }

  /**
   * Discovery succeeds exactly when some reply ends the walk, and then lists, in fetch
   * order, the hashes of the pending items of every page up to that reply.
   */
  lemma DiscoveryPerPage(address: string, responses: seq<Page<Ethscription>>)
    ensures DiscoverEscrowedIds(address, responses).Success? <==> FirstPartial(responses).Some?
    ensures FirstPartial(responses).Some? ==>
      DiscoverEscrowedIds(address, responses).value == PerPageIds(responses[..FirstPartial(responses).value + 1])
  {
    WalkCollectsInOrder(address, None, [], responses);
    var w := GetEthscriptions(address, None, [], responses);
    if w.result.Success? {
      assert DiscoverEscrowedIds(address, responses) == Success(EscrowedIds(w.result.value));
      var fetched := responses[..FirstPartial(responses).value + 1];
      var items := w.result.value;
      assert items == [] + Flatten(fetched);
      assert [] + Flatten(fetched) == Flatten(fetched);
      FetchedIds(items, fetched);
    } else {
      assert DiscoverEscrowedIds(address, responses) == Failure(w.result.error);
    }
  }

  /** The escrowed ids of the items of some fetched pages are their per-page ids. */
  lemma FetchedIds(items: seq<Ethscription>, fetched: seq<Page<Ethscription>>)
    requires items == Flatten(fetched)
    ensures EscrowedIds(items) == PerPageIds(fetched)
  {
    EscrowedIdsFlatten(fetched);
  }
}

=== FILE: escrow.dfy ===
/**
 * Selecting the escrowed inventory items and extracting their transaction hashes:
 * `items.filter(e => e.extension.escrowState === "PENDING")` followed by
 * `.map(e => e.id.split(":")[1])`.
 */
module Escrow {
  import opened Wrappers
  import opened Text

  /** The escrow state that marks an item as still held by the marketplace. */
  const PendingState := "PENDING"

  /** The `extension` record of a listed item; only its escrow state is read. */
  datatype Extension = Extension(escrowState: string)

  /** A listed inventory item; `id` is the composite `network:transactionHash`. */
  datatype Ethscription = Ethscription(id: string, extension: Extension)

  predicate IsPending(e: Ethscription)
  {
    e.extension.escrowState == PendingState
  }

  /** The escrow filter: the pending items, in their original order. */
  function Escrowed(items: seq<Ethscription>): (kept: seq<Ethscription>)
    ensures |kept| <= |items|
    ensures forall e :: e in kept ==> IsPending(e)
    ensures forall e :: multiset(kept)[e] == if IsPending(e) then multiset(items)[e] else 0
  {
    if |items| == 0 then []
    else
      assert items == [items[0]] + items[1..];
      (if IsPending(items[0]) then [items[0]] else []) + Escrowed(items[1..])
  }

  /** An item is kept exactly when it is listed and pending. */
  lemma EscrowedMembership(items: seq<Ethscription>, e: Ethscription)
    ensures e in Escrowed(items) <==> e in items && IsPending(e)
  {
    var kept := Escrowed(items);
    assert e in kept <==> multiset(kept)[e] > 0;
    assert e in items <==> multiset(items)[e] > 0;
  }

  /** Filtering a concatenation filters each part and keeps the parts in order. */
  lemma {:induction false} EscrowedAppend(a: seq<Ethscription>, b: seq<Ethscription>)
    ensures Escrowed(a + b) == Escrowed(a) + Escrowed(b)
  {
    if |a| > 0 {
      assert (a + b)[1..] == a[1..] + b;
      EscrowedAppend(a[1..], b);
    } else {
      assert a + b == b;
    }
  }

  /** The filter keeps every item exactly when all items are pending. */
  lemma {:induction false} EscrowedKeepsAll(items: seq<Ethscription>)
    ensures Escrowed(items) == items <==> forall i :: 0 <= i < |items| ==> IsPending(items[i])
  {
    if |items| > 0 {
      EscrowedKeepsAll(items[1..]);
      if !IsPending(items[0]) {
        assert |Escrowed(items)| < |items|;
      }
    }
  }

  /** Filtering twice is filtering once. */
  lemma {:induction false} EscrowedIdempotent(items: seq<Ethscription>)
    ensures Escrowed(Escrowed(items)) == Escrowed(items)
  {
    var kept := Escrowed(items);
    EscrowedKeepsAll(kept);
  }

  /**
   * `id.split(":")[1]`: the text between the first and second colon, or to the end
   * when there is no second one; `undefined` (None) when the id has no colon.
   */
  function SecondSegment(id: string): (hash: Option<string>)
    ensures hash.Some? <==> ':' in id
    ensures hash.Some? ==> ':' !in hash.value
  {
    var parts := Split(id, [':']);
    SplitCount(id, ':');
    SplitPiecesFree(id, ':');
    if |parts| > 1 then Some(parts[1]) else None
  }

  /** The segment after the network prefix is the transaction hash, whatever follows a second colon. */
  lemma SecondSegmentOf(network: string, hash: string, tail: string)
    requires ':' !in network && ':' !in hash
    requires tail == [] || tail[0] == ':'
    ensures SecondSegment(network + [':'] + hash + tail) == Some(hash)
  {
    assert network + [':'] + hash + tail == network + [':'] + (hash + tail);
    SplitCons(network, [':'], hash + tail);
    if tail == [] {
      assert hash + tail == hash;
      IndexOfAbsent(hash, [':'], 0);
    } else {
      assert hash + tail == hash + [':'] + tail[1..];
      SplitCons(hash, [':'], tail[1..]);
    }
  }

  /** The id map: one entry per item, in order. */
  function IdsOf(items: seq<Ethscription>): (ids: seq<Option<string>>)
    ensures |ids| == |items|
    ensures forall i :: 0 <= i < |items| ==> ids[i] == SecondSegment(items[i].id)
  {
    if |items| == 0 then [] else [SecondSegment(items[0].id)] + IdsOf(items[1..])
  }

  /** The ids of the escrowed items, as the discovery step computes them. */
  function EscrowedIds(items: seq<Ethscription>): (ids: seq<Option<string>>)
    ensures |ids| == |Escrowed(items)| <= |items|
    ensures forall i :: 0 <= i < |ids| ==> ids[i] == SecondSegment(Escrowed(items)[i].id)
  {
    IdsOf(Escrowed(items))
  }

  /** Mapping a concatenation maps each part and keeps the parts in order. */
  lemma {:induction false} IdsOfAppend(a: seq<Ethscription>, b: seq<Ethscription>)
    ensures IdsOf(a + b) == IdsOf(a) + IdsOf(b)
  {
    var l, r := IdsOf(a + b), IdsOf(a) + IdsOf(b);
    assert |l| == |r|;
    forall i | 0 <= i < |l| ensures l[i] == r[i] {
      if i < |a| {
        assert (a + b)[i] == a[i];
      } else {
        assert (a + b)[i] == b[i - |a|];
      }
    }
  }

  /** The escrowed ids of a concatenation are those of each part, in order. */
  lemma EscrowedIdsAppend(a: seq<Ethscription>, b: seq<Ethscription>)
    ensures EscrowedIds(a + b) == EscrowedIds(a) + EscrowedIds(b)
  {
    EscrowedAppend(a, b);
    IdsOfAppend(Escrowed(a), Escrowed(b));
  }
}

=== FILE: pagination.dfy ===
/**
 * `getEthscriptions`: walks the marketplace's items-by-owner listing, following the
 * continuation cursor while a page comes back full, and accumulates the items.
 *
 * The HTTP endpoint is modelled by the sequence of its replies: `responses[k]` answers
 * the k-th request of the walk. A request the sequence does not answer fails, as a
 * rejected `axios.get` does, and the failure propagates to the caller.
 */
module Pagination {
  import opened Wrappers

  /** The listing's page size: a page with this `total` may have a successor. */
  const PageSize: int := 50

  const Endpoint := "https://api.ordex.io/v0.1/items/byOwner?owner=ETHEREUM:"
  const ContinuationParam := "&continuation="

  /** One reply of the listing: its items, its continuation cursor and its `total`. */
  datatype Page<T> = Page(items: seq<T>, continuation: Option<string>, total: int)

  /** JavaScript truthiness of an optional cursor: present and not the empty string. */
  predicate Truthy(cursor: Option<string>)
  {
    cursor.Some? && cursor.value != ""
  }

  /** A page after which the walk requests another: `continuation && total === 50`. */
  predicate IsFull<T>(page: Page<T>)
  {
    Truthy(page.continuation) && page.total == PageSize
  }

  datatype FetchError = Unanswered

  /** The URLs requested, and either the accumulated items or the failure. */
  datatype Walk<T> = Walk(requests: seq<string>, result: Result<seq<T>, FetchError>)

  /** The URL of one request: the owner query, plus the cursor when it is truthy. */
  function PageUrl(address: string, cursor: Option<string>): (url: string)
    ensures |url| == |Endpoint| + |address| + if Truthy(cursor) then |ContinuationParam| + |cursor.value| else 0
  {
    var url := Endpoint + address;
    if Truthy(cursor) then url + ContinuationParam + cursor.value else url
  }

  /**
   * Every request URL starts with the endpoint and `owner=ETHEREUM:<address>`; it goes
   * on exactly when the cursor is truthy, and then with `&continuation=<cursor>`.
   */
  lemma PageUrlShape(address: string, cursor: Option<string>)
    ensures var url := PageUrl(address, cursor);
      |url| >= |Endpoint + address| && url[..|Endpoint + address|] == Endpoint + address
    ensures |PageUrl(address, cursor)| > |Endpoint + address| <==> Truthy(cursor)
    ensures Truthy(cursor) ==> PageUrl(address, cursor)[|Endpoint + address|..] == ContinuationParam + cursor.value
  {
    if Truthy(cursor) {
      assert PageUrl(address, cursor) == (Endpoint + address) + (ContinuationParam + cursor.value);
    }
  }

  /** Reads the cursor back out of a request URL for `address`: the text after `&continuation=`. */
  function CursorOf(address: string, url: string): (cursor: Option<string>)
  {
    var prefix := Endpoint + address + ContinuationParam;
    if |url| > |prefix| && url[..|prefix|] == prefix then Some(url[|prefix|..]) else None
  }

  /** A request URL carries exactly the truthy cursor it was built from. */
  lemma CursorRoundTrip(address: string, cursor: Option<string>)
    ensures CursorOf(address, PageUrl(address, cursor)) == if Truthy(cursor) then cursor else None
  {
    if Truthy(cursor) {
      var url := PageUrl(address, cursor);
      assert url == (Endpoint + address + ContinuationParam) + cursor.value;
    }
  }

  /** Concatenation of the pages' items, in page order. */
  function Flatten<T>(pages: seq<Page<T>>): seq<T>
  {
    if |pages| == 0 then [] else pages[0].items + Flatten(pages[1..])
  }

  /** The index of the first page that is not full, if there is one. */
  function FirstPartial<T>(pages: seq<Page<T>>): (k: Option<nat>)
    ensures k.Some? ==> k.value < |pages| && !IsFull(pages[k.value])
    ensures k.Some? ==> forall j :: 0 <= j < k.value ==> IsFull(pages[j])
    ensures k.None? ==> forall j :: 0 <= j < |pages| ==> IsFull(pages[j])
  {
    if |pages| == 0 then None
    else if !IsFull(pages[0]) then Some(0)
    else match FirstPartial(pages[1..])
      case None => None
      case Some(k) => Some(k + 1)
  }

  /**
   * `getEthscriptions(address, cursor, acc)` against the replies `responses`: request
   * the page for `cursor`, and ask again with the reply's cursor while the reply is full.
   */
  function GetEthscriptions<T>(address: string, cursor: Option<string>, acc: seq<T>, responses: seq<Page<T>>): (w: Walk<T>)
    decreases |responses|
    ensures |w.requests| > 0 && w.requests[0] == PageUrl(address, cursor)
  {
    var url := PageUrl(address, cursor);
    if |responses| == 0 then Walk([url], Failure(Unanswered))
    else
      var res := responses[0];
      if IsFull(res) then
        var rest := GetEthscriptions(address, res.continuation, acc + res.items, responses[1..]);
        Walk([url] + rest.requests, rest.result)
      else
        Walk([url], Success(acc + res.items))
  }

  /** The walk succeeds exactly when some reply is not full. */
  lemma {:induction false} WalkSucceeds<T>(address: string, cursor: Option<string>, acc: seq<T>, responses: seq<Page<T>>)
    ensures GetEthscriptions(address, cursor, acc, responses).result.Success? <==> FirstPartial(responses).Some?
    decreases |responses|
  {
    if |responses| > 0 && IsFull(responses[0]) {
      var res := responses[0];
      WalkSucceeds(address, res.continuation, acc + res.items, responses[1..]);
      assert FirstPartial(responses).Some? <==> FirstPartial(responses[1..]).Some?;
    }
  }

  /**
   * The walk succeeds exactly when some reply is not full. It then yields `acc`
   * followed by the items of every reply up to and including the first one that is
   * not full, in fetch order.
   */
  lemma {:induction false} WalkCollectsInOrder<T>(address: string, cursor: Option<string>, acc: seq<T>, responses: seq<Page<T>>)
    ensures var w := GetEthscriptions(address, cursor, acc, responses);
      w.result.Success? <==> FirstPartial(responses).Some?
    ensures var w := GetEthscriptions(address, cursor, acc, responses);
      FirstPartial(responses).Some? ==>
        w.result.value == acc + Flatten(responses[..FirstPartial(responses).value + 1])
    decreases |responses|
  {
    WalkSucceeds(address, cursor, acc, responses);
    if |responses| > 0 {
      var res := responses[0];
      var w := GetEthscriptions(address, cursor, acc, responses);
      if IsFull(res) {
        var rest := GetEthscriptions(address, res.continuation, acc + res.items, responses[1..]);
        assert w.result == rest.result;
        var k := FirstPartial(responses[1..]);
        if k.Some? {
          WalkCollectsInOrder(address, res.continuation, acc + res.items, responses[1..]);
          assert FirstPartial(responses) == Some(k.value + 1);
          FlattenStep(acc, responses, k.value);
        }
      } else {
        assert w.result == Success(acc + res.items);
        assert FirstPartial(responses) == Some(0);
        assert responses[..1] == [res];
      }
    }
  }

  /**
   * The walk makes one request per reply it reads, plus one unanswered request when the
   * replies run out while still full. Every request after the first follows a full reply
   * and carries that reply's cursor.
   */
  lemma {:induction false} WalkRequests<T>(address: string, cursor: Option<string>, acc: seq<T>, responses: seq<Page<T>>)
    ensures var w := GetEthscriptions(address, cursor, acc, responses);
      |w.requests| == if FirstPartial(responses).Some? then FirstPartial(responses).value + 1 else |responses| + 1
    ensures var w := GetEthscriptions(address, cursor, acc, responses);
      forall j :: 0 < j < |w.requests| ==>
        IsFull(responses[j - 1]) && w.requests[j] == PageUrl(address, responses[j - 1].continuation)
    decreases |responses|
  {
    if |responses| > 0 {
      var res := responses[0];
      if IsFull(res) {
        var rest := GetEthscriptions(address, res.continuation, acc + res.items, responses[1..]);
        WalkRequests(address, res.continuation, acc + res.items, responses[1..]);
        var w := GetEthscriptions(address, cursor, acc, responses);
        assert w.requests == [PageUrl(address, cursor)] + rest.requests;
        forall j | 0 < j < |w.requests|
          ensures IsFull(responses[j - 1]) && w.requests[j] == PageUrl(address, responses[j - 1].continuation)
        {
          if j > 1 {
            assert w.requests[j] == rest.requests[j - 1];
            assert responses[1..][j - 2] == responses[j - 1];
          }
        }
      }
    }
  }

  /** Appending the first page's items and then a prefix of the rest is appending a prefix of all pages. */
  lemma FlattenStep<T>(acc: seq<T>, pages: seq<Page<T>>, k: nat)
    requires k < |pages| - 1
    ensures acc + pages[0].items + Flatten(pages[1..][..k + 1]) == acc + Flatten(pages[..k + 2])
  {
    assert pages[..k + 2][1..] == pages[1..][..k + 1];
    assert Flatten(pages[..k + 2]) == pages[0].items + Flatten(pages[1..][..k + 1]);
  }
}

=== FILE: text.dfy ===
/**
 * The two string primitives the withdrawal page relies on:
 * `Array.prototype.join` and `String.prototype.split` with a non-empty separator,
 * together with `indexOf`, which `split` is built on.
 */
module Text {
  import opened Wrappers

  /** `sep` occurs in `s` starting at index `i`. */
  predicate OccursAt(s: string, sep: string, i: nat)
  {
    i + |sep| <= |s| && s[i..i + |sep|] == sep
  }

  /** `s.indexOf(sep, from)`: the first index at or after `from` where `sep` occurs, if any. */
  function IndexOf(s: string, sep: string, from: nat): (r: Option<nat>)
    requires |sep| > 0
    decreases |s| - from
    ensures r.Some? ==> from <= r.value && OccursAt(s, sep, r.value)
    ensures r.Some? ==> forall i :: from <= i < r.value ==> !OccursAt(s, sep, i)
    ensures r.None? ==> forall i :: from <= i ==> !OccursAt(s, sep, i)
  {
    if from + |sep| > |s| then None
    else if s[from..from + |sep|] == sep then Some(from)
    else IndexOf(s, sep, from + 1)
  }

  /** The total length of the strings in `xs`. */
  function TotalLength(xs: seq<string>): nat
  {
    if |xs| == 0 then 0 else |xs[0]| + TotalLength(xs[1..])
  }

  /**
   * `xs.join(sep)`: the elements in order, with `sep` between neighbours: every
   * character of the elements, and one separator fewer than there are elements.
   */
  function Join(xs: seq<string>, sep: string): (r: string)
    ensures |xs| == 0 ==> r == ""
    ensures |xs| > 0 ==> |r| == TotalLength(xs) + (|xs| - 1) * |sep|
    ensures |xs| > 0 ==> r[..|xs[0]|] == xs[0]
  {
    if |xs| == 0 then ""
    else if |xs| == 1 then xs[0]
    else xs[0] + sep + Join(xs[1..], sep)
  }

  /** `s.split(sep)` for a non-empty separator: the pieces between successive occurrences of `sep`. */
  function Split(s: string, sep: string): (parts: seq<string>)
    requires |sep| > 0
    decreases |s|
    ensures |parts| >= 1
  {
    match IndexOf(s, sep, 0)
    case None => [s]
    case Some(i) => [s[..i]] + Split(s[i + |sep|..], sep)
  }

  /** If the first character of `sep` does not occur in `s` from `from` on, neither does `sep`. */
  lemma {:induction false} IndexOfAbsent(s: string, sep: string, from: nat)
    requires |sep| > 0
    requires forall i :: from <= i < |s| ==> s[i] != sep[0]
    ensures IndexOf(s, sep, from) == None
    decreases |s| - from
  {
    if from + |sep| <= |s| {
      assert s[from..from + |sep|][0] == s[from];
      IndexOfAbsent(s, sep, from + 1);
    }
  }

  /** `indexOf` finds an occurrence at `k` when no earlier position holds the first character of `sep`. */
  lemma {:induction false} IndexOfFirst(s: string, sep: string, from: nat, k: nat)
    requires |sep| > 0 && from <= k && OccursAt(s, sep, k)
    requires forall i :: from <= i < k ==> s[i] != sep[0]
    ensures IndexOf(s, sep, from) == Some(k)
    decreases k - from
  {
    if from < k {
      assert s[from..from + |sep|][0] == s[from];
      IndexOfFirst(s, sep, from + 1, k);
    }
  }

  /** In `x + sep + y`, `sep` is first found right after `x` when `x` cannot start an occurrence. */
  lemma IndexOfAfter(x: string, sep: string, y: string)
    requires |sep| > 0 && sep[0] !in x
    ensures IndexOf(x + sep + y, sep, 0) == Some(|x|)
  {
    var s := x + sep + y;
    assert s[|x|..|x| + |sep|] == sep;
    forall i | 0 <= i < |x| ensures s[i] != sep[0] {
      assert s[i] == x[i];
    }
    IndexOfFirst(s, sep, 0, |x|);
  }

  /** Splitting `x + sep + y` cuts at the separator placed after `x` when `x` cannot start an occurrence. */
  lemma SplitCons(x: string, sep: string, y: string)
    requires |sep| > 0 && sep[0] !in x
    ensures Split(x + sep + y, sep) == [x] + Split(y, sep)
  {
    var s := x + sep + y;
    IndexOfAfter(x, sep, y);
    assert s[..|x|] == x;
    assert s[|x| + |sep|..] == y;
  }

  /** Joining a list with at least two elements puts `sep` after its first element. */
  lemma JoinCons(x: string, xs: seq<string>, sep: string)
    requires |xs| > 0
    ensures Join([x] + xs, sep) == x + sep + Join(xs, sep)
  {
    assert ([x] + xs)[1..] == xs;
  }

  /** A string cut around an occurrence of `sep` is the part before, `sep`, and the part after. */
  lemma CutAt(s: string, sep: string, i: nat)
    requires OccursAt(s, sep, i)
    ensures s == s[..i] + sep + s[i + |sep|..]
  {
    assert s == s[..i] + s[i..i + |sep|] + s[i + |sep|..];
  }

  /** Joining the pieces of a split gives back the string. */
  lemma {:induction false} JoinSplit(s: string, sep: string)
    requires |sep| > 0
    ensures Join(Split(s, sep), sep) == s
    decreases |s|
  {
    match IndexOf(s, sep, 0)
    case None =>
    case Some(i) =>
      var rest := s[i + |sep|..];
      JoinSplit(rest, sep);
      JoinCons(s[..i], Split(rest, sep), sep);
      CutAt(s, sep, i);
  }

  /** Splitting a join gives back the list, provided no element contains the separator's first character. */
  lemma {:induction false} SplitJoin(xs: seq<string>, sep: string)
    requires |sep| > 0 && |xs| > 0
    requires forall x :: x in xs ==> sep[0] !in x
    ensures Split(Join(xs, sep), sep) == xs
  {
    assert xs[0] in xs;
    if |xs| == 1 {
      IndexOfAbsent(xs[0], sep, 0);
    } else {
      assert forall x :: x in xs[1..] ==> x in xs;
      SplitJoin(xs[1..], sep);
      SplitCons(xs[0], sep, Join(xs[1..], sep));
    }
  }

  /** A one-character separator never appears inside a piece. */
  lemma {:induction false} SplitPiecesFree(s: string, c: char)
    ensures forall p :: p in Split(s, [c]) ==> c !in p
    decreases |s|
  {
    match IndexOf(s, [c], 0)
    case None =>
      forall i | 0 <= i < |s| ensures s[i] != c {
        assert !OccursAt(s, [c], i);
        assert s[i..i + 1] == [s[i]];
      }
    case Some(k) =>
      forall i | 0 <= i < k ensures s[i] != c {
        assert !OccursAt(s, [c], i);
        assert s[i..i + 1] == [s[i]];
      }
      SplitPiecesFree(s[k + 1..], c);
      assert Split(s, [c]) == [s[..k]] + Split(s[k + 1..], [c]);
  }

  /** A string splits into more than one piece exactly when it contains the one-character separator. */
  lemma SplitCount(s: string, c: char)
    ensures |Split(s, [c])| > 1 <==> c in s
  {
    match IndexOf(s, [c], 0)
    case None =>
      SplitPiecesFree(s, c);
      assert Split(s, [c]) == [s];
    case Some(k) =>
      assert s[k..k + 1] == [c];
      assert s[k] == c;
  }

  /** A character absent from every element and from the separator is absent from the join. */
  lemma {:induction false} JoinAvoids(xs: seq<string>, sep: string, c: char)
    requires c !in sep
    requires forall x :: x in xs ==> c !in x
    ensures c !in Join(xs, sep)
  {
    if |xs| > 1 {
      JoinAvoids(xs[1..], sep, c);
    }
  }
}

=== FILE: withdrawal.dfy ===
/**
 * The withdrawal message builder `nB` of the escrow-withdrawal page: it lists the
 * item ids, pluralises "item", and appends an expiry two ten-minute steps after the
 * start of the current ten-minute window.
 *
 * The clock is the parameter `nowMs` (milliseconds since the epoch, as `Date.getTime`
 * returns), and `Date.prototype.toISOString` is the uninterpreted parameter `iso`.
 */
module Withdrawal {
  import opened Wrappers
  import opened Text

  /** 6e5 milliseconds: the width of one expiry window. */
  const TenMinutesMs: int := 600000

  const Intro := "I would like to withdraw the following item"
  /** The template literal `s` of the source, up to the formatted expiry. */
  const Notice := "\n\n" + "Signing this message does not cost gas. " + "\n\n" + "This signature expires at: "
  const IdSeparator := ", "

  /**
   * The expiry `o`: `(Math.floor(now / 6e5) + 2) * 6e5`. Dafny's `/` by a positive
   * divisor rounds toward negative infinity, as `Math.floor` does.
   */
  function Expiry(nowMs: int): (o: int)
    ensures o % TenMinutesMs == 0
    ensures TenMinutesMs < o - nowMs <= 2 * TenMinutesMs
  {
    (nowMs / TenMinutesMs + 2) * TenMinutesMs
  }

  /** The expiry is the only window boundary more than ten and at most twenty minutes ahead. */
  lemma ExpiryUnique(nowMs: int, o: int)
    requires o % TenMinutesMs == 0
    requires TenMinutesMs < o - nowMs <= 2 * TenMinutesMs
    ensures o == Expiry(nowMs)
  {
  }

  /** Every call made within one ten-minute window computes the same expiry. */
  lemma ExpiryStable(a: int, b: int)
    requires a / TenMinutesMs == b / TenMinutesMs
    ensures Expiry(a) == Expiry(b)
  {
  }

  /** Two builds over the same ids within one ten-minute window produce the same message. */
  lemma MessageStable(ids: seq<string>, a: int, b: int, iso: int -> string)
    requires a / TenMinutesMs == b / TenMinutesMs
    ensures Message(ids, a, iso) == Message(ids, b, iso)
  {
    ExpiryStable(a, b);
  }

  /** A later clock never gives an earlier expiry. */
  lemma ExpiryMonotone(a: int, b: int)
    requires a <= b
    ensures Expiry(a) <= Expiry(b)
  {
  }

  /** "s" after "item" exactly when more than one id is listed. */
  function Plural(count: nat): (suffix: string)
    ensures suffix == "s" <==> count > 1
    ensures suffix == "" <==> count <= 1
  {
    if count > 1 then "s" else ""
  }

  /** The message up to the ids: the intro, "s" for more than one id, and ": ". */
  function Head(count: nat): string
  {
    Intro + Plural(count) + ": "
  }

  /** The message from the ids on: the joined ids, a space, the notice and the expiry. */
  function Body(ids: seq<string>, expiresAt: string): string
  {
    Join(ids, IdSeparator) + " " + Notice + expiresAt
  }

  /** The head is the intro followed by "s" exactly when more than one id follows. */
  lemma HeadShape(count: nat)
    ensures |Head(count)| > |Intro| && Head(count)[..|Intro|] == Intro
    ensures Head(count)[|Intro|] == 's' <==> count > 1
  {
    var rest := Plural(count) + ": ";
    assert Head(count) == Intro + rest;
    if count > 1 {
      assert rest == ['s', ':', ' '];
    } else {
      assert rest == [':', ' '];
    }
  }

  /** The body ends with the notice and the formatted expiry. */
  lemma BodyShape(ids: seq<string>, expiresAt: string)
    ensures var tail := Notice + expiresAt; |Body(ids, expiresAt)| >= |tail| && Body(ids, expiresAt)[|Body(ids, expiresAt)| - |tail|..] == tail
  {
    var lead := Join(ids, IdSeparator) + " ";
    assert Body(ids, expiresAt) == lead + (Notice + expiresAt);
  }

  /** `nB(ids)` evaluated at time `nowMs`, with `iso` standing for `toISOString`. */
  function Message(ids: seq<string>, nowMs: int, iso: int -> string): (m: string)
    ensures |m| > |Intro| && m[..|Intro|] == Intro
    ensures m[|Intro|] == 's' <==> |ids| > 1
    ensures var tail := Notice + iso(Expiry(nowMs)); |m| >= |tail| && m[|m| - |tail|..] == tail
  {
    var head, body := Head(|ids|), Body(ids, iso(Expiry(nowMs)));
    var tail := Notice + iso(Expiry(nowMs));
    HeadShape(|ids|);
    BodyShape(ids, iso(Expiry(nowMs)));
    assert (head + body)[..|Intro|] == head[..|Intro|];
    assert (head + body)[|Intro|] == head[|Intro|];
    assert (head + body)[|head + body| - |tail|..] == body[|body| - |tail|..];
    head + body
  }

  /** An id the message can carry unambiguously: no comma and no line break. */
  predicate PlainId(id: string)
  {
    ',' !in id && '\n' !in id
  }

  /**
   * Reads the head of a withdrawal message: the intro, an optional "s" and ": ".
   * Gives whether the "s" was there and what follows the head.
   */
  function ParseHead(m: string): (r: Option<(bool, string)>)
    ensures r.Some? ==> |m| > |Intro| && m[..|Intro|] == Intro
    ensures r.Some? ==> m == Intro + (if r.value.0 then "s" else "") + ": " + r.value.1
  {
    if |m| < |Intro| || m[..|Intro|] != Intro then None
    else
      var afterIntro := m[|Intro|..];
      var plural := |afterIntro| > 0 && afterIntro[0] == 's';
      var rest := if plural then afterIntro[1..] else afterIntro;
      if |rest| < 2 || rest[..2] != ": " then None
      else Some((plural, rest[2..]))
  }

  /** Reads the id list in front of " " and the notice, splitting it at ", ". */
  function ParseBody(body: string): (r: Option<seq<string>>)
    ensures r.Some? ==> |r.value| > 0
  {
    match IndexOf(body, Notice, 0)
    case None => None
    case Some(i) =>
      if i == 0 || body[i - 1] != ' ' then None
      else Some(Split(body[..i - 1], IdSeparator))
  }

  /**
   * Reads the ids back out of a withdrawal message, rejecting a message whose
   * "item"/"items" disagrees with the number of ids it lists.
   */
  function ParseIds(m: string): (ids: Option<seq<string>>)
  {
    match ParseHead(m)
    case None => None
    case Some((plural, body)) =>
      match ParseBody(body)
      case None => None
      case Some(parsed) => if plural != (|parsed| > 1) then None else Some(parsed)
  }

  /** The head parser recovers the plural flag and the rest of a message built from `Head`. */
  lemma ParseHeadOf(count: nat, body: string)
    ensures ParseHead(Head(count) + body) == Some((count > 1, body))
  {
    var m := Head(count) + body;
    assert m == Intro + (Plural(count) + ": " + body);
    assert m[..|Intro|] == Intro;
    var afterIntro := m[|Intro|..];
    assert afterIntro == Plural(count) + ": " + body;
    var rest := if count > 1 then afterIntro[1..] else afterIntro;
    assert rest == ": " + body;
  }

  /** The body parser recovers plain ids from a body built by `Body`. */
  lemma ParseBodyOf(ids: seq<string>, expiresAt: string)
    requires |ids| > 0
    requires forall id :: id in ids ==> PlainId(id)
    ensures ParseBody(Body(ids, expiresAt)) == Some(ids)
  {
    var joined := Join(ids, IdSeparator);
    var lead := joined + " ";
    JoinAvoids(ids, IdSeparator, '\n');
    assert Notice[0] == '\n';
    assert Notice[0] !in lead;
    IndexOfAfter(lead, Notice, expiresAt);
    assert lead + Notice + expiresAt == Body(ids, expiresAt);
    assert lead[..|lead| - 1] == joined;
    assert (lead + Notice + expiresAt)[..|lead| - 1] == joined;
    SplitJoin(ids, IdSeparator);
  }

  /** The ids listed in a message are read back exactly, in order, whatever the clock and formatter. */
  lemma MessageRoundTrip(ids: seq<string>, nowMs: int, iso: int -> string)
    requires |ids| > 0
    requires forall id :: id in ids ==> PlainId(id)
    ensures ParseIds(Message(ids, nowMs, iso)) == Some(ids)
  {
    var body := Body(ids, iso(Expiry(nowMs)));
    ParseHeadOf(|ids|, body);
    ParseBodyOf(ids, iso(Expiry(nowMs)));
  }

  /** Two messages over plain ids are equal only if they list the same ids in the same order. */
  lemma MessageDeterminesIds(ids1: seq<string>, ids2: seq<string>, now1: int, now2: int, iso1: int -> string, iso2: int -> string)
    requires |ids1| > 0 && |ids2| > 0
    requires forall id :: id in ids1 ==> PlainId(id)
    requires forall id :: id in ids2 ==> PlainId(id)
    requires Message(ids1, now1, iso1) == Message(ids2, now2, iso2)
    ensures ids1 == ids2
  {
    MessageRoundTrip(ids1, now1, iso1);
    MessageRoundTrip(ids2, now2, iso2);
  }
}

=== FILE: wrappers.dfy ===
/** Option and Result datatypes used across the model. */
module Wrappers {

  /** A value that may be absent (JavaScript's `undefined`). */
  datatype Option<+T> = None | Some(value: T)

  /** The outcome of an operation that may fail with an error of type E. */
  datatype Result<+R, +E> = Success(value: R) | Failure(error: E)
}
